=== FILE: README.md ===
# Fuzzy diabetes and hypertension risk — a Dafny model

The application asks for four patient measurements (age, BMI, fasting
glucose, systolic pressure) and turns them into two risk scores between 0
and 100, one for diabetes and one for hypertension, by Mamdani fuzzy
inference. This project models that inference exactly over Dafny `real`:

- `membership.dfy` (module `Membership`): trapezoidal membership as built
  by `fuzz.trapmf`, including its vertical-edge cases; the Zadeh
  connectives; clipping an input to its universe; reading a trapezoid
  sampled on the integers `0..100` by linear interpolation, as
  `fuzz.interp_membership` does, and the proof that this loses nothing for
  trapezoids with integer breakpoints and sloped edges.
- `antecedents.dfy` (module `Antecedents`): the `baixo` / `medio` / `alto`
  terms derived from a variable's `(min, max, mean, std)`, the
  configuration loop that derives them for every variable, and
  fuzzification of a crisp measurement.
- `rules.dfy` (module `Rules`): rule premises as AND/OR trees, the six
  rules as data, their firing strengths, and the activation of each risk
  term (the largest strength among the rules concluding it).
- `inference.dfy` (module `Inference`): the fixed risk terms, clipping and
  aggregation over the sample points `0..100`, the discrete centroid, and
  `Compute`, which fails with `NoRuleFired` when an output's aggregate is
  empty.
- `labels.dfy` (module `Labels`): the category of a crisp score (first
  term of maximal degree), its emoji, and the two summary metrics, mean
  activation and dominant variable.

What is proved, beyond the contracts of each operation:

- The derived terms are valid trapezoids exactly when `min <= mean`,
  `0 <= std` and `mean + std <= max`. Their three plateaus cover
  `[min, max]`, so every clipped input belongs fully to some term. When
  `std > 0`, on `[mean, mean + std]` `medio` is 1 and `baixo + alto` is 1.
- The firing strengths of both outputs are the stated min/max formulas,
  lie in `[0, 1]` and are monotone in the input grades.
- A computed score always lies in `[0, 100]`. `Compute` fails exactly when
  one output has no activated term. Under admissible statistics it never
  fails, because both outputs always fire.
- If only one risk term is activated, the score is that term's centre (20,
  50 or 80) whatever the activation, and its category is that term.
- The summary metrics read the raw measurements, which are not clipped:
  outside its universe a measurement has grade 0 in every term, while the
  inference reads it at the nearest end. Under admissible statistics the
  mean activation is the fraction of measurements inside their universes,
  so it is 1 exactly when all four are inside. The dominant variable is the
  first one listed whose measurement is inside its universe (age when none
  is). These hold for the exact trapezoids. The sampled antecedent
  universes can give slightly less than 1 when `mean` or `mean + std`
  falls between two samples.

The program itself computes the score with scikit-fuzzy, whose source is
not part of this model. The primitives `trapmf`, `interp_membership` and
`ControlSystemSimulation.compute` are modelled by their standard
definitions, anchored to the lines of `main.py` that call them.

## Model

| member | source | states |
|---|---|---|
| `Membership.Trapezoid.Degree` | main.py:75-85 | the degree lies in [0,1]; it is 0 outside the feet, and 1 on the plateau `[b,c]` of a valid trapezoid |
| `Membership.Clamp` | main.py:162-165 | an input outside the variable's universe is read at the nearest end; inside it is unchanged |
| `Membership.SampledDegree` | main.py:104-106 | an interpolated degree lies in [0,1], is 0 outside [0,100] and equals the exact degree at each integer sample point |
| `Membership.LerpInUnit` | main.py:104-106 | interpolating between two degrees gives a degree |
| `Membership.OnGrid` | main.py:80-85 | a trapezoid with nondecreasing integer breakpoints is valid |
| `Membership.SampledDegreeExact` | main.py:104-106 | on [0,100], interpolating a trapezoid sampled at the integers 0..100 gives the exact degree when its breakpoints are integers and its edges sloped |
| `Membership.SegmentIsLinear` | main.py:104-106 | between two neighbouring integer samples such a trapezoid is a straight line |
| `Membership.RisingIsLinear` | main.py:104-106 | on the rising edge, interpolating between samples one apart gives the exact degree |
| `Membership.FallingIsLinear` | main.py:104-106 | on the falling edge, interpolating between samples one apart gives the exact degree |
| `Membership.DegreeSymmetric` | main.py:80-85 | a trapezoid with equal edge widths is symmetric about the midpoint of its feet |
| `Membership.DegreeShape` | main.py:75-85 | the degree does not decrease up to the plateau's end and does not increase after its start |
| `Antecedents.Derive` | main.py:65-69 | the three derived trapezoids are valid exactly when `min <= mean`, `0 <= std`, `mean + std <= max`; `baixo` starts its plateau at `min`, `alto` ends it at `max`, and adjacent terms share their breakpoints at `mean` and `mean + std` |
| `Antecedents.DeriveAll` | main.py:72-77 | the configuration loop yields one derived term set per variable, in order, all valid exactly when all statistics are admissible |
| `Antecedents.Fuzzify` | main.py:75-77 | every grade of a clipped measurement lies in [0,1] |
| `Antecedents.Summarize` | main.py:279-301 | a raw measurement's summary grades lie in [0,1]; they are 0 outside the universe `[min, max]` and the exact term degrees inside it |
| `Antecedents.SummaryPeak` | main.py:279-301 | under admissible statistics the largest summary grade is 1 inside the universe and 0 outside it |
| `Antecedents.AboveRangeReadsDifferently` | main.py:162-165 | a measurement above the universe has summary peak 0 but is fully `alto` for the inference |
| `Antecedents.MiddleBand` | main.py:66-68 | when `std > 0`, on `[mean, mean + std]` `medio` is 1 and `baixo + alto` is 1 |
| `Antecedents.PlateausCover` | main.py:66-68 | every clipped measurement has largest grade 1 |
| `Antecedents.LowOrHigh` | main.py:66-68 | every clipped measurement is partly `baixo` or partly `alto` |
| `Rules.Eval` | main.py:88-95 | the strength of an AND/OR premise over grades in [0,1] lies in [0,1] |
| `Rules.Activation` | main.py:88-95 | a term's activation is nonnegative, at most 1 over grades in [0,1], and positive only if some rule concluding it fires |
| `Rules.Firing` | main.py:88-95 | the three activations of an output lie in [0,1] |
| `Rules.DiabetesFiring` | main.py:89-91 | diabetes `alto` = max of the glucose, BMI and age `alto` grades; `medio` = min of glucose and BMI `medio`; `baixo` = min of glucose and age `baixo` |
| `Rules.HypertensionFiring` | main.py:92-94 | hypertension `alto` = max of the pressure, age and BMI `alto` grades; `medio` = min of pressure and age `medio`; `baixo` = min of pressure and age `baixo` |
| `Rules.RULE_BASE` | main.py:88-95 | the six rules, each premise and conclusion as written |
| `Rules.Index` | main.py:88-95 | the rule at a term's `Index` concludes that term |
| `Rules.RuleBaseOnePerTerm` | main.py:88-95 | `RULE_BASE` holds six rules, and the only rule concluding an output term is the one at that term's `Index` |
| `Rules.UnfoldRuleBase` | main.py:88-95 | each risk term is concluded by exactly one rule, whose strength is its activation |
| `Rules.ActivationOfSole` | main.py:88-95 | a term concluded by one rule only has that rule's strength as activation |
| `Rules.ActivationOfNone` | main.py:88-95 | a term no rule concludes has activation 0 |
| `Rules.EvalMonotone` | main.py:88-95 | raising any input grade never lowers a rule's strength |
| `Rules.ActivationMonotone` | main.py:88-95 | raising any input grade never lowers a term's activation |
| `Inference.RiskTerm` | main.py:80-85 | each risk term is the valid integer trapezoid with feet 20 and shoulders 5 on either side of its centre |
| `Inference.RiskTermExact` | main.py:104-106 | on [0,100] a risk term read from its samples has its exact degree |
| `Inference.RiskTermSymmetric` | main.py:80-85 | a risk term has the same degree `k` below and `k` above its centre |
| `Inference.Samples` | main.py:61-62 | the aggregate is sampled at the 101 points of the risk universe, and the samples of nonnegative activations are nonnegative |
| `Inference.SamplesBelowPeak` | main.py:166 | no sample exceeds the largest activation |
| `Inference.Aggregate` | main.py:166 | the aggregate is nonnegative and never exceeds the largest activation |
| `Inference.Centroid` | main.py:166-169 | the centroid exists exactly when some sample is positive, and then lies between the first and last sample point |
| `Inference.Defuzzify` | main.py:166-169 | an output fails with `NoRuleFired` exactly when none of its terms is activated; otherwise its score lies in [0,100] |
| `Inference.Compute` | main.py:160-169 | both scores lie in [0,100]; the call fails exactly when one output has no activated term |
| `Inference.FuzzifyAll` | main.py:162-165 | all twelve input grades lie in [0,1] |
| `Inference.EmptyIffUnfired` | main.py:166 | the aggregate has a positive sample exactly when some term is activated |
| `Inference.AlwaysScores` | main.py:88-95 | under admissible statistics `Compute` always yields scores, so the error handler is not reached by `NoRuleFired` |
| `Inference.MassZero` | main.py:166-169 | a sum of nonnegative samples is nonnegative, and zero exactly when every sample is zero |
| `Inference.MomentBounds` | main.py:166-169 | the first moment of nonnegative samples lies between 0 and the last sample point times their sum |
| `Inference.TorqueOfMirror` | main.py:166-169 | samples mirrored about `c` have no moment about `c` |
| `Inference.MomentOfMirror` | main.py:166-169 | samples mirrored about `c` and zero elsewhere have moment `c` times their sum |
| `Inference.CentroidOfMirror` | main.py:166-169 | such samples, not all zero, have their centroid at `c` |
| `Inference.CentroidAt` | main.py:166-169 | samples of nonzero mass whose moment is `x` times their mass have centroid `x` |
| `Inference.SoleTermScore` | main.py:80-85 | with a single activated risk term the score is that term's centre, whatever the activation |
| `Inference.AggregateOfSole` | main.py:166 | with a single activated risk term the aggregate is that term clipped by its activation |
| `Inference.SoleAggregateEqual` | main.py:166 | with a single activated risk term, points where that term has equal degree have equal aggregate |
| `Inference.AggregateSymmetric` | main.py:166 | with a single activated risk term the aggregate is symmetric about that term's centre |
| `Inference.SamplePair` | main.py:166 | with a single activated risk term the samples `k` below and `k` above its centre are equal |
| `Inference.SoleTermMirrored` | main.py:166 | with a single activated risk term the samples are mirrored about its centre over the term's whole support |
| `Inference.SoleTermSamples` | main.py:166 | with a single activated risk term the samples are mirrored about its centre and zero outside its feet |
| `Labels.FirstArgMax` | main.py:107 | the index returned holds a largest element and every earlier element is strictly smaller |
| `Labels.Category` | main.py:102-107 | the category's sampled degree is at least every other term's, and every term registered before it has a strictly smaller degree |
| `Labels.CategoryExact` | main.py:104-106 | on [0,100] the same holds for the exact trapezoid degrees |
| `Labels.Emoji` | main.py:109-115 | green exactly for `baixo`, yellow exactly for `medio`, red for every other string |
| `Labels.EmojiDistinguishesLevels` | main.py:109-115 | the three categories get three different emojis |
| `Labels.TotalActivation` | main.py:377-382 | the mean of the four largest grades lies in [0,1] |
| `Labels.Dominant` | main.py:397-403 | the dominant input has a largest peak grade, and no input listed before it has the same peak |
| `Labels.SummaryGrades` | main.py:279-301 | the summary grades of all four raw measurements lie in [0,1], each read against its own variable's terms |
| `Labels.SummaryPeaks` | main.py:279-301 | under admissible statistics each input's largest summary grade is 1 inside its universe and 0 outside |
| `Labels.TotalActivationCounts` | main.py:377-382 | under admissible statistics the mean activation is the number of measurements inside their universes, divided by 4 |
| `Labels.TotalActivationIsOne` | main.py:377-382 | under admissible statistics the mean activation is 1 exactly when every measurement lies in its universe |
| `Labels.DominantIsFirstInRange` | main.py:397-403 | under admissible statistics the dominant input is the first listed whose measurement lies in its universe, and age when none does |
| `Labels.DominantIsAge` | main.py:397-403 | under admissible statistics the dominant input is age whenever the age lies in its universe |
| `Labels.SoleTermCategory` | main.py:171-172 | with a single activated risk term, the score's category is that term |

## Left out

- Page setup, input widgets, buttons, metrics and info boxes: user interface only.
- All plotting: presentation only.
- Loading `dataset.csv` and the fallback example arrays: file I/O. The per-variable `(min, max, mean, std)` are parameters (`Stats`, `Config`).
- Computing `mean` and `std` with NumPy, and the `incerteza_media` metric: floating-point statistics, not modelled.
- The antecedent universes built with `np.arange`: their float steps make the sample set unreliable. Antecedent membership is the exact trapezoid over `[min, max]`: the inference clips an input to it, and the summary gives 0 outside it. The last sample of a universe may differ slightly from `max`.
- `Inference.Centroid`: the discrete centroid `sum(x*y)/sum(y)` over the integers `0..100` is a stated definition. scikit-fuzzy's own centroid integrates the piecewise-linear aggregate segment by segment, and the model does not claim to match it bit for bit.
- `Inference.Compute`: when both outputs fail, the error names the diabetes output. The library's order of evaluation is not modelled.
- The mutable `ControlSystemSimulation` object and its `input` dictionary: `Compute` takes all four measurements at once, so a missing input cannot be expressed.
- `Membership.Trapezoid.Degree`: its contract does not state the formulas of the rising and falling edges, which only restate its body; `RisingIsLinear`, `FallingIsLinear`, `DegreeShape` and `DegreeSymmetric` state what the edges do.
- The configuration check of `trapmf`, which raises at start-up on decreasing breakpoints: modelled as the predicate `Trapezoid.Valid` and the `Derive` equivalence, not as an error value.
- Rule weights and triangular terms: the program does not use them.
- Floating-point rounding throughout: the model computes over exact reals.

=== FILE: antecedents.dfy ===
/** The input variables (age, BMI, glucose, systolic pressure): their three
    trapezoidal terms derived from dataset statistics, and fuzzification of
    a crisp measurement against them. */
module Antecedents {
  import opened Membership

  /** Descriptive statistics of one measurement over the dataset. */
  datatype Stats = Stats(min: real, max: real, mean: real, std: real)
  {
    /** The statistics the derived terms are well-formed for. */
    predicate Admissible() { min <= mean && 0.0 <= std && mean + std <= max }
  }

  /** The `baixo`, `medio` and `alto` terms of one variable, in the order
      they are registered. */
  datatype Terms = Terms(baixo: Trapezoid, medio: Trapezoid, alto: Trapezoid)
  {
    predicate Valid() { baixo.Valid() && medio.Valid() && alto.Valid() }
  }

  /** Degrees of one crisp value in the three terms of a variable. */
  datatype Grades = Grades(baixo: real, medio: real, alto: real)
  {
    predicate InUnit() {
      0.0 <= baixo <= 1.0 && 0.0 <= medio <= 1.0 && 0.0 <= alto <= 1.0
    }

    /** The largest of the three degrees. */
    function Peak(): real { Max3(baixo, medio, alto) }
  }

  /** Breakpoints of the three terms from `(min, max, mean, std)`: `baixo`
      holds up to the mean and falls off over one deviation, `medio` rises
      over the deviation below the mean and falls over the second deviation
      above it, `alto` rises over the deviation above the mean and holds up
      to the maximum. */
  function Derive(s: Stats): (ts: Terms)
    ensures ts.Valid() <==> s.Admissible()
    ensures ts.baixo.b == s.min && ts.alto.c == s.max
    ensures ts.baixo.c == ts.medio.b == ts.alto.a == s.mean
    ensures ts.baixo.d == ts.medio.c == ts.alto.b == s.mean + s.std
  {
    Terms(Trapezoid(s.min, s.min, s.mean, s.mean + s.std),
          Trapezoid(s.mean - s.std, s.mean, s.mean + s.std, s.mean + 2.0 * s.std),
          Trapezoid(s.mean, s.mean + s.std, s.max, s.max))
  }

  /** Degrees of the measurement `x`, clipped to the variable's universe
      `[min, max]`, in the derived terms. */
  function Fuzzify(s: Stats, x: real): (g: Grades)
    requires s.min <= s.max
    ensures g.InUnit()
  {
    var ts := Derive(s);
    var v := Clamp(x, s.min, s.max);
    Grades(ts.baixo.Degree(v), ts.medio.Degree(v), ts.alto.Degree(v))
  }

  /** Degrees of the raw measurement `x` as the summary reads them: the
      derived terms inside the universe `[min, max]`, and zero outside it,
      where interpolation over the universe's samples gives zero. */
  function Summarize(s: Stats, x: real): (g: Grades)
    ensures g.InUnit()
    ensures x < s.min || s.max < x ==> g == Grades(0.0, 0.0, 0.0)
    ensures s.min <= x <= s.max ==>
              g == Grades(Derive(s).baixo.Degree(x), Derive(s).medio.Degree(x), Derive(s).alto.Degree(x))
  {
    if x < s.min || s.max < x then Grades(0.0, 0.0, 0.0) else Fuzzify(s, x)
  }

  /** The configuration loop: one derived term set per variable, in order. */
  method DeriveAll(stats: seq<Stats>) returns (table: seq<Terms>)
    ensures |table| == |stats|
    ensures forall i :: 0 <= i < |stats| ==> table[i] == Derive(stats[i])
    ensures (forall i :: 0 <= i < |stats| ==> table[i].Valid())
            <==> (forall i :: 0 <= i < |stats| ==> stats[i].Admissible())
  {
    table := [];
    for i := 0 to |stats|
      invariant |table| == i
      invariant forall j :: 0 <= j < i ==> table[j] == Derive(stats[j])
    {
      table := table + [Derive(stats[i])];
    }
  }

  /** Between the mean and one deviation above it, `medio` holds fully and
      `baixo` and `alto` share the rest: the falling edge of `baixo` and the
      rising edge of `alto` span the same interval. */
  lemma MiddleBand(s: Stats, x: real)
    requires s.Admissible() && 0.0 < s.std
    requires s.mean <= x <= s.mean + s.std
    ensures Derive(s).medio.Degree(x) == 1.0
    ensures Derive(s).baixo.Degree(x) + Derive(s).alto.Degree(x) == 1.0
  {
    var ts := Derive(s);
    if x == s.mean {
      assert ts.baixo.Degree(x) == 1.0 && ts.alto.Degree(x) == 0.0;
    } else if x == s.mean + s.std {
      assert ts.baixo.Degree(x) == 0.0 && ts.alto.Degree(x) == 1.0;
    } else {
      assert ts.baixo.Degree(x) == (s.mean + s.std - x) / s.std;
      assert ts.alto.Degree(x) == (x - s.mean) / s.std;
      SharedEdge(s.mean + s.std - x, x - s.mean, s.std);
    }
  }

  lemma SharedEdge(p: real, q: real, w: real)
    requires 0.0 < w && p + q == w
    ensures p / w + q / w == 1.0
  {
    assert p / w + q / w == (p + q) / w;
  }

  /** The plateaus of the three terms, `[min, mean]`, `[mean, mean + std]`
      and `[mean + std, max]`, cover the universe: every measurement, once
      clipped to it, belongs fully to some term. */
  lemma PlateausCover(s: Stats, x: real)
    requires s.Admissible()
    ensures Fuzzify(s, x).Peak() == 1.0
  {
    var ts := Derive(s);
    var v := Clamp(x, s.min, s.max);
    if v <= s.mean {
      assert ts.baixo.Degree(v) == 1.0;
    } else if v <= s.mean + s.std {
      assert ts.medio.Degree(v) == 1.0;
    } else {
      assert ts.alto.Degree(v) == 1.0;
    }
  }

  /** Every measurement, once clipped, belongs to `baixo` or to `alto` with
      a positive degree. */
  lemma LowOrHigh(s: Stats, x: real)
    requires s.Admissible()
    ensures Fuzzify(s, x).baixo > 0.0 || Fuzzify(s, x).alto > 0.0
  {
    var ts := Derive(s);
    var v := Clamp(x, s.min, s.max);
    if v <= s.mean {
      assert ts.baixo.Degree(v) == 1.0;
    } else if v < s.mean + s.std {
      assert ts.alto.Degree(v) == (v - s.mean) / s.std;
      assert (v - s.mean) / s.std > 0.0 by {
        assert (v - s.mean) / s.std * s.std == v - s.mean;
      }
    } else {
      assert ts.alto.Degree(v) == 1.0;
    }
  }

  /** Under admissible statistics a measurement has largest summary grade
      one inside the universe and zero outside it. */
  lemma SummaryPeak(s: Stats, x: real)
    requires s.Admissible()
    ensures Summarize(s, x).Peak() == if s.min <= x <= s.max then 1.0 else 0.0
  {
    if s.min <= x <= s.max {
      PlateausCover(s, x);
    }
  }

  /** A measurement above the universe counts for nothing in the summary,
      while the inference reads it at `max`, fully `alto`. */
  lemma AboveRangeReadsDifferently(s: Stats, x: real)
    requires s.Admissible() && s.max < x
    ensures Summarize(s, x).Peak() == 0.0
    ensures Fuzzify(s, x).alto == 1.0
  {
  }
}

=== FILE: inference.dfy ===
/** The Mamdani pipeline behind `ControlSystemSimulation.compute`: fuzzify
    the four measurements, fire the rules, clip each risk term by its
    activation, aggregate by pointwise maximum over the risk universe
    `0..100` (step 1) and defuzzify by discrete centroid. */
module Inference {
  import opened Membership
  import opened Antecedents
  import opened Rules

  /** Last sample point of the risk universe `0, 1, ..., 100`. */
  const TOP: nat := 100

  /** The risk terms, the same for both outputs. */
  function RiskTerm(l: Level): (t: Trapezoid)
    ensures t.Valid()
    ensures t == OnGrid(Centre(l) - 20, Centre(l) - 5, Centre(l) + 5, Centre(l) + 20)
    ensures t.b - t.a == t.d - t.c
  {
    match l
    case Baixo => Trapezoid(0.0, 15.0, 25.0, 40.0)
    case Medio => Trapezoid(30.0, 45.0, 55.0, 70.0)
    case Alto => Trapezoid(60.0, 75.0, 85.0, 100.0)
  }

  /** The axis of symmetry of a risk term, which lies on its plateau. */
  function Centre(l: Level): (c: int)
    ensures 20 <= c && c + 20 <= TOP
  {
    match l
    case Baixo => 20
    case Medio => 50
    case Alto => 80
  }

  /** On the risk universe a risk term read from its samples has its exact
      degree. */
  lemma RiskTermExact(l: Level, y: real)
    requires 0.0 <= y <= 100.0
    ensures SampledDegree(RiskTerm(l), y) == RiskTerm(l).Degree(y)
  {
    var c := Centre(l);
    SampledDegreeExact(c - 20, c - 5, c + 5, c + 20, y);
  }

  /** Aggregated output membership at `x`: each term clipped by its
      activation, combined by maximum. */
  function Aggregate(s: Grades, x: real): (y: real)
    ensures 0.0 <= s.baixo && 0.0 <= s.medio && 0.0 <= s.alto ==> 0.0 <= y
    ensures y <= s.Peak()
  {
    Max3(Min(s.baixo, RiskTerm(Baixo).Degree(x)),
         Min(s.medio, RiskTerm(Medio).Degree(x)),
         Min(s.alto, RiskTerm(Alto).Degree(x)))
  }

  /** The aggregate at the sample points `0..100`. */
  function Samples(s: Grades): (ys: seq<real>)
    ensures |ys| == TOP + 1
    ensures 0.0 <= s.baixo && 0.0 <= s.medio && 0.0 <= s.alto ==> NonNegative(ys)
  {
    seq(TOP + 1, i requires 0 <= i <= TOP => Aggregate(s, i as real))
  }

  /** The sample at `i` is the aggregate at `i`. */
  lemma SampleAt(s: Grades, i: nat)
    requires i <= TOP
    ensures Samples(s)[i] == Aggregate(s, i as real)
  {
  }

  /** No sample exceeds the largest activation. */
  lemma SamplesBelowPeak(s: Grades, i: nat)
    requires i <= TOP
    ensures Samples(s)[i] <= s.Peak()
  {
    SampleAt(s, i);
  }

  predicate NonNegative(ys: seq<real>) { forall i :: 0 <= i < |ys| ==> 0.0 <= ys[i] }

  /** Sum of `ys[lo..hi]`. */
  function Mass(ys: seq<real>, lo: nat, hi: nat): real
    requires lo <= hi <= |ys|
    decreases hi - lo
  {
    if lo == hi then 0.0 else Mass(ys, lo, hi - 1) + ys[hi - 1]
  }

  /** Sum of `i * ys[i]` for `i` in `lo..hi`. */
  function Moment(ys: seq<real>, lo: nat, hi: nat): real
    requires lo <= hi <= |ys|
    decreases hi - lo
  {
    if lo == hi then 0.0 else Moment(ys, lo, hi - 1) + (hi - 1) as real * ys[hi - 1]
  }

  /** Sum of `(i - c) * ys[i]` for `i` in `lo..hi`: the moment about `c`. */
  function Torque(ys: seq<real>, c: real, lo: nat, hi: nat): real
    requires lo <= hi <= |ys|
    decreases hi - lo
  {
    if lo == hi then 0.0 else Torque(ys, c, lo, hi - 1) + ((hi - 1) as real - c) * ys[hi - 1]
  }

  /** Discrete centroid `sum(i * y_i) / sum(y_i)` of samples taken at
      `0, 1, ...`; `None` when the samples are all zero. */
  function Centroid(ys: seq<real>): (r: Option<real>)
    requires NonNegative(ys)
    ensures r.Some? <==> exists i :: 0 <= i < |ys| && ys[i] > 0.0
    ensures r.Some? ==> 0.0 <= r.value <= (|ys| - 1) as real
  {
    var mass := Mass(ys, 0, |ys|);
    MassZero(ys, |ys|);
    if mass == 0.0 then None
    else
      MomentBounds(ys, |ys|);
      WeightedAverageBounds(Moment(ys, 0, |ys|), mass, (|ys| - 1) as real);
      Some(Moment(ys, 0, |ys|) / mass)
  }

  datatype Option<T> = None | Some(value: T)

  /** The error `compute` raises when an output's aggregate is empty. */
  datatype Error = NoRuleFired(output: Output)

  datatype Result<T> = Ok(value: T) | Err(error: Error)

  /** The two crisp risk scores. */
  datatype Risks = Risks(diabetes: real, hipertensao: real)

  /** One crisp measurement per input variable. */
  datatype Patient = Patient(idade: real, imc: real, glicemia: real, pressao: real)
  {
    function Of(v: Var): real
    {
      match v
      case Idade => idade
      case Imc => imc
      case Glicemia => glicemia
      case Pressao => pressao
    }
  }

  /** Dataset statistics per input variable. */
  datatype Config = Config(idade: Stats, imc: Stats, glicemia: Stats, pressao: Stats)
  {
    /** Every universe `[min, max]` is nonempty. */
    predicate Ordered() {
      idade.min <= idade.max && imc.min <= imc.max && glicemia.min <= glicemia.max
      && pressao.min <= pressao.max
    }

    function Of(v: Var): Stats
    {
      match v
      case Idade => idade
      case Imc => imc
      case Glicemia => glicemia
      case Pressao => pressao
    }

    predicate Admissible() {
      idade.Admissible() && imc.Admissible() && glicemia.Admissible() && pressao.Admissible()
    }
  }

  /** Fuzzification of all four measurements. */
  function FuzzifyAll(cfg: Config, p: Patient): (m: Memberships)
    requires cfg.Ordered()
    ensures m.InUnit()
  {
    Memberships(Fuzzify(cfg.idade, p.idade), Fuzzify(cfg.imc, p.imc),
                Fuzzify(cfg.glicemia, p.glicemia), Fuzzify(cfg.pressao, p.pressao))
  }

  /** Crisp value of one output from its term activations. */
  function Defuzzify(o: Output, s: Grades): (r: Result<real>)
    requires s.InUnit()
    ensures r.Err? <==> s == Grades(0.0, 0.0, 0.0)
    ensures r.Err? ==> r.error == NoRuleFired(o)
    ensures r.Ok? ==> 0.0 <= r.value <= TOP as real
  {
    EmptyIffUnfired(s);
    match Centroid(Samples(s))
    case None => Err(NoRuleFired(o))
    case Some(v) => Ok(v)
  }

  /** `compute`: both risk scores, or the error of the first output (in
      declaration order) whose aggregate is empty. */
  function Compute(cfg: Config, p: Patient): (r: Result<Risks>)
    requires cfg.Ordered()
    ensures r.Ok? ==> 0.0 <= r.value.diabetes <= 100.0 && 0.0 <= r.value.hipertensao <= 100.0
    ensures r.Err? <==> Firing(RiscoDiabetes, FuzzifyAll(cfg, p)) == Grades(0.0, 0.0, 0.0)
                        || Firing(RiscoHipertensao, FuzzifyAll(cfg, p)) == Grades(0.0, 0.0, 0.0)
  {
    var m := FuzzifyAll(cfg, p);
    match Defuzzify(RiscoDiabetes, Firing(RiscoDiabetes, m))
    case Err(e) => Err(e)
    case Ok(d) =>
      match Defuzzify(RiscoHipertensao, Firing(RiscoHipertensao, m))
      case Err(e) => Err(e)
      case Ok(h) => Ok(Risks(d, h))
  }

  /** The aggregate is zero at every sample point exactly when no term is
      activated: each risk term reaches one at its centre, an integer. */
  lemma EmptyIffUnfired(s: Grades)
    requires s.InUnit()
    ensures (exists i :: 0 <= i < |Samples(s)| && Samples(s)[i] > 0.0) <==> s != Grades(0.0, 0.0, 0.0)
  {
    var ys := Samples(s);
    if s != Grades(0.0, 0.0, 0.0) {
      var l := if s.baixo > 0.0 then Baixo else if s.medio > 0.0 then Medio else Alto;
      var c := Centre(l);
      assert RiskTerm(l).Degree(c as real) == 1.0;
      assert ys[c] == Aggregate(s, c as real);
      assert ys[c] > 0.0;
    } else {
      forall i | 0 <= i < |ys| ensures ys[i] == 0.0 {
        assert ys[i] == Aggregate(s, i as real);
      }
    }
  }

  /** Under admissible statistics both outputs always fire: every clipped
      measurement is partly `baixo` or partly `alto`, and the `alto` rules
      are disjunctions while the `baixo` rules need only glucose or
      pressure together with age to be low. */
  lemma AlwaysScores(cfg: Config, p: Patient)
    requires cfg.Admissible()
    ensures cfg.Ordered() && Compute(cfg, p).Ok?
  {
    var m := FuzzifyAll(cfg, p);
    LowOrHigh(cfg.idade, p.idade);
    LowOrHigh(cfg.glicemia, p.glicemia);
    LowOrHigh(cfg.pressao, p.pressao);
    DiabetesFiring(m);
    HypertensionFiring(m);
  }

  /** `ys[i] == 0` for every `i` in `lo..hi` makes the mass zero; a zero
      mass of nonnegative samples makes every sample zero. */
  lemma {:induction false} MassZero(ys: seq<real>, hi: nat)
    requires hi <= |ys| && NonNegative(ys)
    ensures 0.0 <= Mass(ys, 0, hi)
    ensures Mass(ys, 0, hi) == 0.0 <==> forall i :: 0 <= i < hi ==> ys[i] == 0.0
  {
    if hi > 0 {
      MassZero(ys, hi - 1);
    }
  }

  /** For nonnegative samples, `0 <= Moment <= (hi - 1) * Mass`. */
  lemma {:induction false} MomentBounds(ys: seq<real>, hi: nat)
    requires 0 < hi <= |ys| && NonNegative(ys)
    ensures 0.0 <= Moment(ys, 0, hi) <= (hi - 1) as real * Mass(ys, 0, hi)
  {
    if hi > 1 {
      MomentBounds(ys, hi - 1);
      MassZero(ys, hi - 1);
      var n := (hi - 1) as real;
      var m := Mass(ys, 0, hi - 1);
      assert (n - 1.0) * m <= n * m;
      assert Moment(ys, 0, hi) <= n * m + n * ys[hi - 1];
      assert n * m + n * ys[hi - 1] == n * (m + ys[hi - 1]);
    }
  }

  lemma WeightedAverageBounds(p: real, q: real, top: real)
    requires 0.0 < q && 0.0 <= p <= top * q
    ensures 0.0 <= p / q <= top
  {
    RatioInUnit(0.0, q);
    RatioMonotone(0.0, p, q);
    RatioMonotone(p, top * q, q);
    Cancel(top, q);
  }

  /** Moment about `c` is moment about zero less `c` times the mass. */
  lemma {:induction false} TorqueIsShiftedMoment(ys: seq<real>, c: real, lo: nat, hi: nat)
    requires lo <= hi <= |ys|
    ensures Torque(ys, c, lo, hi) == Moment(ys, lo, hi) - c * Mass(ys, lo, hi)
    decreases hi - lo
  {
    if lo < hi {
      TorqueIsShiftedMoment(ys, c, lo, hi - 1);
    }
  }

  /** The moment about `c` adds up over adjacent windows. */
  lemma {:induction false} TorqueSplit(ys: seq<real>, c: real, lo: nat, mid: nat, hi: nat)
    requires lo <= mid <= hi <= |ys|
    ensures Torque(ys, c, lo, hi) == Torque(ys, c, lo, mid) + Torque(ys, c, mid, hi)
    decreases hi - mid
  {
    if mid < hi {
      TorqueSplit(ys, c, lo, mid, hi - 1);
    }
  }

  /** Zero samples carry no moment. */
  lemma {:induction false} TorqueOfZeros(ys: seq<real>, c: real, lo: nat, hi: nat)
    requires lo <= hi <= |ys|
    requires forall i :: lo <= i < hi ==> ys[i] == 0.0
    ensures Torque(ys, c, lo, hi) == 0.0
    decreases hi - lo
  {
    if lo < hi {
      TorqueOfZeros(ys, c, lo, hi - 1);
    }
  }

  /** `ys[c - j] == ys[c + j]` for every `j` in `0..k`. */
  predicate Mirrored(ys: seq<real>, c: nat, k: nat)
    requires k <= c && c + k < |ys|
  {
    k == 0 || (ys[c - k] == ys[c + k] && Mirrored(ys, c, k - 1))
  }

  /** Samples mirrored about `c` on `[c - k, c + k]` have no moment about
      `c` there. */
  lemma {:induction false} TorqueOfMirror(ys: seq<real>, c: nat, k: nat)
    requires k <= c && c + k < |ys|
    requires Mirrored(ys, c, k)
    ensures Torque(ys, c as real, c - k, c + k + 1) == 0.0
  {
    if k > 0 {
      var x := c as real;
      assert ys[c - k] == ys[c + k] && Mirrored(ys, c, k - 1);
      TorqueOfMirror(ys, c, k - 1);
      TorqueSplit(ys, x, c - k, c - k + 1, c + k + 1);
      assert Torque(ys, x, c - k, c - k + 1) == ((c - k) as real - x) * ys[c - k];
      assert ((c - k) as real - x) == -(k as real);
      assert Torque(ys, x, c - k + 1, c + k + 1)
             == Torque(ys, x, c - k + 1, c + k) + ((c + k) as real - x) * ys[c + k];
      assert (c + k) as real - x == k as real;
    }
  }

  /** Samples that vanish outside `[c - k, c + k]` and are mirrored about
      `c` inside it have moment `c` times their mass. */
  lemma MomentOfMirror(ys: seq<real>, c: nat, k: nat)
    requires k <= c && c + k < |ys|
    requires Mirrored(ys, c, k)
    requires forall i :: 0 <= i < |ys| && (i < c - k || c + k < i) ==> ys[i] == 0.0
    ensures Moment(ys, 0, |ys|) == c as real * Mass(ys, 0, |ys|)
  {
    var n, x := |ys|, c as real;
    var lo, hi := c - k, c + k + 1;
    assert Torque(ys, x, lo, hi) == 0.0 by {
      TorqueOfMirror(ys, c, k);
    }
    assert Torque(ys, x, 0, lo) == 0.0 by {
      TorqueOfZeros(ys, x, 0, lo);
    }
    assert Torque(ys, x, hi, n) == 0.0 by {
      TorqueOfZeros(ys, x, hi, n);
    }
    assert Torque(ys, x, 0, n) == Torque(ys, x, 0, lo) + Torque(ys, x, lo, n) by {
      TorqueSplit(ys, x, 0, lo, n);
    }
    assert Torque(ys, x, lo, n) == Torque(ys, x, lo, hi) + Torque(ys, x, hi, n) by {
      TorqueSplit(ys, x, lo, hi, n);
    }
    TorqueIsShiftedMoment(ys, x, 0, n);
  }

  /** ... and, when not all zero, their centroid at `c`. */
  lemma CentroidOfMirror(ys: seq<real>, c: nat, k: nat)
    requires NonNegative(ys) && k <= c && c + k < |ys|
    requires Mirrored(ys, c, k)
    requires forall i :: 0 <= i < |ys| && (i < c - k || c + k < i) ==> ys[i] == 0.0
    requires exists i :: 0 <= i < |ys| && ys[i] > 0.0
    ensures Centroid(ys) == Some(c as real)
  {
    MassZero(ys, |ys|);
    MomentOfMirror(ys, c, k);
    CentroidAt(ys, c as real);
  }

  /** Samples of nonzero mass whose moment is `x` times their mass have
      their centroid at `x`. */
  lemma CentroidAt(ys: seq<real>, x: real)
    requires NonNegative(ys) && 0 < |ys|
    requires Mass(ys, 0, |ys|) != 0.0 && Moment(ys, 0, |ys|) == x * Mass(ys, 0, |ys|)
    ensures Centroid(ys) == Some(x)
  {
    var mass := Mass(ys, 0, |ys|);
    Cancel(x, mass);
    assert Moment(ys, 0, |ys|) / mass == x;
  }

  lemma Cancel(x: real, q: real)
    requires q != 0.0
    ensures x * q / q == x
  {
  }

  /** With only the term `l` activated, the aggregate is that term clipped
      by its activation. */
  lemma AggregateOfSole(s: Grades, l: Level, x: real)
    requires s.InUnit()
    requires forall l' :: l' != l ==> Grade(s, l') == 0.0
    ensures Aggregate(s, x) == Min(Grade(s, l), RiskTerm(l).Degree(x))
  {
    match l
    case Baixo => assert Grade(s, Medio) == 0.0 && Grade(s, Alto) == 0.0;
    case Medio => assert Grade(s, Baixo) == 0.0 && Grade(s, Alto) == 0.0;
    case Alto => assert Grade(s, Baixo) == 0.0 && Grade(s, Medio) == 0.0;
  }

  /** When a single risk term is activated, the score is that term's centre
      (20, 50 or 80), whatever the activation. */
  lemma SoleTermScore(o: Output, s: Grades, l: Level)
    requires s.InUnit() && Grade(s, l) > 0.0
    requires forall l' :: l' != l ==> Grade(s, l') == 0.0
    ensures Defuzzify(o, s) == Ok(Centre(l) as real)
  {
    var ys := Samples(s);
    var c := Centre(l);
    EmptyIffUnfired(s);
    SoleTermSamples(s, l);
    CentroidOfMirror(ys, c, 20);
  }

  /** With only the term `l` activated, the samples vanish outside the feet
      of `l` and are mirrored about its centre between them. */
  lemma SoleTermSamples(s: Grades, l: Level)
    requires s.InUnit()
    requires forall l' :: l' != l ==> Grade(s, l') == 0.0
    ensures Mirrored(Samples(s), Centre(l), 20)
    ensures var ys, c := Samples(s), Centre(l);
            forall i :: 0 <= i < |ys| && (i < c - 20 || c + 20 < i) ==> ys[i] == 0.0
  {
    var ys := Samples(s);
    var c := Centre(l);
    forall i | 0 <= i < |ys| && (i < c - 20 || c + 20 < i) ensures ys[i] == 0.0 {
      assert ys[i] == Aggregate(s, i as real);
      AggregateOfSole(s, l, i as real);
    }
    SoleTermMirrored(s, l, 20);
  }

  lemma {:induction false} SoleTermMirrored(s: Grades, l: Level, k: nat)
    requires s.InUnit() && k <= 20
    requires forall l' :: l' != l ==> Grade(s, l') == 0.0
    ensures Mirrored(Samples(s), Centre(l), k)
  {
    if k > 0 {
      SoleTermMirrored(s, l, k - 1);
      SamplePair(s, l, k);
    }
  }

  /** With only the term `l` activated, the samples `k` below and `k` above
      the centre of `l` are equal. */
  lemma SamplePair(s: Grades, l: Level, k: nat)
    requires s.InUnit() && k <= 20
    requires forall l' :: l' != l ==> Grade(s, l') == 0.0
    ensures Samples(s)[Centre(l) - k] == Samples(s)[Centre(l) + k]
  {
    var c := Centre(l);
    SampleAt(s, c - k);
    SampleAt(s, c + k);
    AggregateSymmetric(s, l, k);
  }

  /** With only the term `l` activated, the aggregate is symmetric about
      the centre of `l`. */
  lemma AggregateSymmetric(s: Grades, l: Level, k: nat)
    requires s.InUnit()
    requires forall l' :: l' != l ==> Grade(s, l') == 0.0
    ensures Aggregate(s, (Centre(l) - k) as real) == Aggregate(s, (Centre(l) + k) as real)
  {
    RiskTermSymmetric(l, k);
    SoleAggregateEqual(s, l, (Centre(l) - k) as real, (Centre(l) + k) as real);
  }

  /** With only the term `l` activated, two points where `l` has the same
      degree have the same aggregate. */
  lemma SoleAggregateEqual(s: Grades, l: Level, x: real, y: real)
    requires s.InUnit()
    requires forall l' :: l' != l ==> Grade(s, l') == 0.0
    requires RiskTerm(l).Degree(x) == RiskTerm(l).Degree(y)
    ensures Aggregate(s, x) == Aggregate(s, y)
  {
    AggregateOfSole(s, l, x);
    AggregateOfSole(s, l, y);
  }

  /** A risk term is symmetric about its centre. */
  lemma RiskTermSymmetric(l: Level, k: nat)
    ensures RiskTerm(l).Degree((Centre(l) - k) as real) == RiskTerm(l).Degree((Centre(l) + k) as real)
  {
    var t, c := RiskTerm(l), Centre(l);
    DegreeSymmetric(t, (c - k) as real);
    assert t.a + t.d - (c - k) as real == (c + k) as real;
  }
}

=== FILE: labels.dfy ===
/** Presentation helpers that read the model: the dominant risk term of a
    crisp score (`obter_categoria_semantica`), its emoji
    (`obter_emoji_nivel_risco`), and the two summary metrics computed from
    the input grades (`total_ativacao`, `var_dominante`). */
module Labels {
  import opened Membership
  import opened Antecedents
  import opened Rules
  import opened Inference

  /** Index of the first largest element, as Python's `max` with a key:
      a later element replaces the best so far only when strictly larger. */
  function FirstArgMax(xs: seq<real>): (k: nat)
    requires |xs| > 0
    ensures k < |xs|
    ensures forall j :: 0 <= j < |xs| ==> xs[j] <= xs[k]
    ensures forall j :: 0 <= j < k ==> xs[j] < xs[k]
  {
    if |xs| == 1 then 0
    else
      var k := FirstArgMax(xs[..|xs| - 1]);
      if xs[k] < xs[|xs| - 1] then |xs| - 1 else k
  }

  /** The risk terms in the order they are registered. */
  const LEVELS: seq<Level> := [Baixo, Medio, Alto]

  /** Position of a term in registration order. */
  function Rank(l: Level): (i: nat)
    ensures i < |LEVELS| && LEVELS[i] == l
  {
    match l
    case Baixo => 0
    case Medio => 1
    case Alto => 2
  }

  /** Degrees of a crisp score in the three sampled risk terms. */
  function LevelDegrees(y: real): (ds: seq<real>)
    ensures |ds| == |LEVELS|
    ensures forall l :: ds[Rank(l)] == SampledDegree(RiskTerm(l), y)
  {
    [SampledDegree(RiskTerm(Baixo), y), SampledDegree(RiskTerm(Medio), y),
     SampledDegree(RiskTerm(Alto), y)]
  }

  /** The risk term a crisp score belongs to most, ties going to the term
      registered first. */
  function Category(y: real): (l: Level)
    ensures forall l' :: SampledDegree(RiskTerm(l'), y) <= SampledDegree(RiskTerm(l), y)
    ensures forall l' :: Rank(l') < Rank(l) ==> SampledDegree(RiskTerm(l'), y) < SampledDegree(RiskTerm(l), y)
  {
    var ds := LevelDegrees(y);
    var k := FirstArgMax(ds);
    assert Rank(LEVELS[k]) == k;
    LEVELS[k]
  }

  /** On the risk universe the sampled degrees are the exact ones, so the
      category is dominant for the exact trapezoids too. */
  lemma CategoryExact(y: real)
    requires 0.0 <= y <= 100.0
    ensures forall l' :: RiskTerm(l').Degree(y) <= RiskTerm(Category(y)).Degree(y)
    ensures forall l' :: Rank(l') < Rank(Category(y)) ==> RiskTerm(l').Degree(y) < RiskTerm(Category(y)).Degree(y)
  {
    forall l: Level ensures SampledDegree(RiskTerm(l), y) == RiskTerm(l).Degree(y) {
      RiskTermExact(l, y);
    }
  }

  /** The dictionary key of a term. */
  function Name(l: Level): string
  {
    match l
    case Baixo => "baixo"
    case Medio => "medio"
    case Alto => "alto"
  }

  const GREEN: string := "\U{1F7E2}"
  const YELLOW: string := "\U{1F7E1}"
  const RED: string := "\U{1F534}"

  /** Emoji for a category name: green for `baixo`, yellow for `medio`, red
      for anything else. */
  function Emoji(category: string): (e: string)
    ensures e == GREEN <==> category == "baixo"
    ensures e == YELLOW <==> category == "medio"
    ensures e == RED <==> category != "baixo" && category != "medio"
  {
    if category == "baixo" then GREEN
    else if category == "medio" then YELLOW
    else RED
  }

  /** The three risk terms get three different emojis. */
  lemma EmojiDistinguishesLevels(l: Level, l': Level)
    ensures Emoji(Name(l)) == Emoji(Name(l')) <==> l == l'
  {
  }

  /** Mean over the four inputs of each input's largest grade. */
  function TotalActivation(m: Memberships): (r: real)
    ensures m.InUnit() ==> 0.0 <= r <= 1.0
  {
    (m.idade.Peak() + m.imc.Peak() + m.glicemia.Peak() + m.pressao.Peak()) / 4.0
  }

  /** The inputs in the order the summary lists them. */
  const VARS: seq<Var> := [Idade, Imc, Glicemia, Pressao]

  /** Position of an input in the summary's order. */
  function Position(v: Var): (i: nat)
    ensures i < |VARS| && VARS[i] == v
  {
    match v
    case Idade => 0
    case Imc => 1
    case Glicemia => 2
    case Pressao => 3
  }

  /** The input whose largest grade is largest, ties going to the input
      listed first. */
  function Dominant(m: Memberships): (v: Var)
    ensures forall w :: m.Of(w).Peak() <= m.Of(v).Peak()
    ensures forall w :: m.Of(w).Peak() == m.Of(v).Peak() ==> Position(v) <= Position(w)
  {
    var peaks := [m.idade.Peak(), m.imc.Peak(), m.glicemia.Peak(), m.pressao.Peak()];
    assert forall w :: peaks[Position(w)] == m.Of(w).Peak();
    var k := FirstArgMax(peaks);
    assert Position(VARS[k]) == k;
    VARS[k]
  }

  /** The grades the summary reads: every raw measurement against its
      variable's terms, zero outside the variable's universe. */
  function SummaryGrades(cfg: Config, p: Patient): (m: Memberships)
    ensures m.InUnit()
    ensures forall v :: m.Of(v) == Summarize(cfg.Of(v), p.Of(v))
  {
    Memberships(Summarize(cfg.idade, p.idade), Summarize(cfg.imc, p.imc),
                Summarize(cfg.glicemia, p.glicemia), Summarize(cfg.pressao, p.pressao))
  }

  /** The measurement of `v` lies in its universe. */
  predicate InRange(cfg: Config, p: Patient, v: Var)
  {
    cfg.Of(v).min <= p.Of(v) <= cfg.Of(v).max
  }

  function Indicator(b: bool): real { if b then 1.0 else 0.0 }

  /** Under admissible statistics the mean activation is the fraction of
      measurements that lie in their universe ... */
  lemma TotalActivationCounts(cfg: Config, p: Patient)
    requires cfg.Admissible()
    ensures TotalActivation(SummaryGrades(cfg, p))
            == (Indicator(InRange(cfg, p, Idade)) + Indicator(InRange(cfg, p, Imc))
                + Indicator(InRange(cfg, p, Glicemia)) + Indicator(InRange(cfg, p, Pressao))) / 4.0
  {
    SummaryPeak(cfg.idade, p.idade);
    SummaryPeak(cfg.imc, p.imc);
    SummaryPeak(cfg.glicemia, p.glicemia);
    SummaryPeak(cfg.pressao, p.pressao);
  }

  /** ... so it is one exactly when all four do. */
  lemma TotalActivationIsOne(cfg: Config, p: Patient)
    requires cfg.Admissible()
    ensures TotalActivation(SummaryGrades(cfg, p)) == 1.0 <==> forall v :: InRange(cfg, p, v)
  {
    TotalActivationCounts(cfg, p);
    if TotalActivation(SummaryGrades(cfg, p)) == 1.0 {
      forall v ensures InRange(cfg, p, v) {
        match v
        case Idade =>
        case Imc =>
        case Glicemia =>
        case Pressao =>
      }
    }
  }

  /** Under admissible statistics the dominant input is the first, in the
      summary's order, whose measurement lies in its universe; age when
      none does. */
  lemma DominantIsFirstInRange(cfg: Config, p: Patient)
    requires cfg.Admissible()
    ensures var v := Dominant(SummaryGrades(cfg, p));
            (InRange(cfg, p, v) || (v == Idade && forall w :: !InRange(cfg, p, w)))
            && forall w :: Position(w) < Position(v) ==> !InRange(cfg, p, w)
  {
    var m := SummaryGrades(cfg, p);
    var v := Dominant(m);
    SummaryPeaks(cfg, p);
    if !InRange(cfg, p, v) {
      forall w ensures !InRange(cfg, p, w) {
        assert m.Of(w).Peak() <= m.Of(v).Peak();
      }
      assert m.Of(Idade).Peak() == m.Of(v).Peak();
    }
  }

  /** Each input's largest summary grade is one inside its universe and
      zero outside it. */
  lemma SummaryPeaks(cfg: Config, p: Patient)
    requires cfg.Admissible()
    ensures forall w :: SummaryGrades(cfg, p).Of(w).Peak() == Indicator(InRange(cfg, p, w))
  {
    SummaryPeak(cfg.idade, p.idade);
    SummaryPeak(cfg.imc, p.imc);
    SummaryPeak(cfg.glicemia, p.glicemia);
    SummaryPeak(cfg.pressao, p.pressao);
  }

  /** In particular the dominant input is age whenever age lies in its
      universe. */
  lemma DominantIsAge(cfg: Config, p: Patient)
    requires cfg.Admissible() && InRange(cfg, p, Idade)
    ensures Dominant(SummaryGrades(cfg, p)) == Idade
  {
    DominantIsFirstInRange(cfg, p);
  }

  /** When only the risk term `l` is activated, the score is its centre and
      its category is `l` itself. */
  lemma SoleTermCategory(o: Output, s: Grades, l: Level)
    requires s.InUnit() && Grade(s, l) > 0.0
    requires forall l' :: l' != l ==> Grade(s, l') == 0.0
    ensures Defuzzify(o, s) == Ok(Centre(l) as real)
    ensures Category(Centre(l) as real) == l
  {
    SoleTermScore(o, s, l);
    var y := Centre(l) as real;
    forall l' ensures SampledDegree(RiskTerm(l'), y) == if l' == l then 1.0 else 0.0 {
      RiskTermExact(l', y);
    }
  }
}

=== FILE: membership.dfy ===
/** Trapezoidal membership functions, as built with `fuzz.trapmf`, and the
    Zadeh connectives used throughout the model. */
module Membership {

  /** Fuzzy OR (Zadeh). */
  function Max(x: real, y: real): real { if x < y then y else x }

  /** Fuzzy AND (Zadeh). */
  function Min(x: real, y: real): real { if x < y then x else y }

  /** Largest of three degrees, as Python's `max` over three values. */
  function Max3(x: real, y: real, z: real): real { Max(Max(x, y), z) }

  /** `x` clipped to `[lo, hi]`: an input outside a variable's universe is
      read at the nearest end of that universe. */
  function Clamp(x: real, lo: real, hi: real): (r: real)
    requires lo <= hi
    ensures lo <= r <= hi
    ensures lo <= x <= hi ==> r == x
    ensures x < lo ==> r == lo
    ensures hi < x ==> r == hi
  {
    if x < lo then lo else if hi < x then hi else x
  }

  /** A trapezoid with feet `a`, `d` and shoulders `b`, `c`. */
  datatype Trapezoid = Trapezoid(a: real, b: real, c: real, d: real)
  {
    /** The breakpoints `trapmf` accepts: nondecreasing. */
    predicate Valid() { a <= b <= c <= d }

    /** Degree of membership of `x`: zero outside the feet, rising on
        `[a, b)`, one on `[b, c]`, falling on `(c, d]`.  A vertical edge
        (`a == b` or `c == d`) belongs to the plateau, as in `trapmf`. */
    function Degree(x: real): (r: real)
      ensures 0.0 <= r <= 1.0
      ensures x < a || d < x ==> r == 0.0
      ensures Valid() && b <= x <= c ==> r == 1.0
    {
      if x < a || d < x then 0.0
      else if x < b then RatioInUnit(x - a, b - a); (x - a) / (b - a)
      else if x <= c then 1.0
      else RatioInUnit(d - x, d - c); (d - x) / (d - c)
    }
  }

  lemma RatioInUnit(p: real, q: real)
    requires 0.0 <= p <= q && 0.0 < q
    ensures 0.0 <= p / q <= 1.0
  {
    assert p / q * q == p;
  }

  lemma RatioMonotone(p: real, p': real, q: real)
    requires p <= p' && 0.0 < q
    ensures p / q <= p' / q
  {
    assert p / q * q == p && p' / q * q == p';
  }

  /** Degree of `t` in a universe sampled at the integers `0..100`, read at
      `x` by linear interpolation between neighbouring samples and zero
      outside the universe (`fuzz.interp_membership`). */
  function SampledDegree(t: Trapezoid, x: real): (r: real)
    ensures 0.0 <= r <= 1.0
    ensures x < 0.0 || 100.0 < x ==> r == 0.0
    ensures 0.0 <= x <= 100.0 && x.Floor as real == x ==> r == t.Degree(x)
  {
    if x < 0.0 || 100.0 < x then 0.0
    else if x == 100.0 then t.Degree(100.0)
    else
      var k := x.Floor;
      LerpInUnit(t.Degree(k as real), t.Degree((k + 1) as real), x - k as real);
      LerpStart(t.Degree(k as real), t.Degree((k + 1) as real));
      Lerp(t.Degree(k as real), t.Degree((k + 1) as real), x - k as real)
  }

  /** The point at fraction `f` of the way from `y0` to `y1`. */
  function Lerp(y0: real, y1: real, f: real): real { y0 + f * (y1 - y0) }

  /** A point between two degrees is a degree. */
  lemma LerpInUnit(y0: real, y1: real, f: real)
    requires 0.0 <= y0 <= 1.0 && 0.0 <= y1 <= 1.0 && 0.0 <= f <= 1.0
    ensures 0.0 <= Lerp(y0, y1, f) <= 1.0
  {
    assert Lerp(y0, y1, f) == (1.0 - f) * y0 + f * y1;
    assert 0.0 <= (1.0 - f) * y0 <= 1.0 - f;
    assert 0.0 <= f * y1 <= f;
  }

  /** A trapezoid whose breakpoints are integers. */
  function OnGrid(a: int, b: int, c: int, d: int): (t: Trapezoid)
    ensures a <= b <= c <= d ==> t.Valid()
  {
    Trapezoid(a as real, b as real, c as real, d as real)
  }

  /** The integer grid does not lose precision for a trapezoid whose
      breakpoints are integers and whose edges are sloped: between two
      neighbouring samples the trapezoid is a straight line. */
  lemma SampledDegreeExact(a: int, b: int, c: int, d: int, x: real)
    requires a < b <= c < d
    requires 0.0 <= x <= 100.0
    ensures SampledDegree(OnGrid(a, b, c, d), x) == OnGrid(a, b, c, d).Degree(x)
  {
    if x < 100.0 {
      SegmentIsLinear(a, b, c, d, x.Floor, x);
    }
  }

  /** Between the samples `k` and `k + 1` the interpolated degree is the
      exact one. */
  lemma SegmentIsLinear(a: int, b: int, c: int, d: int, k: int, x: real)
    requires a < b <= c < d
    requires k as real <= x < (k + 1) as real
    ensures var t := OnGrid(a, b, c, d);
            Lerp(t.Degree(k as real), t.Degree((k + 1) as real), x - k as real) == t.Degree(x)
  {
    var t := OnGrid(a, b, c, d);
    var lo, hi := k as real, (k + 1) as real;
    if x == lo {
      LerpStart(t.Degree(lo), t.Degree(hi));
    } else if x < t.a {
      assert k < a;
      Flat(t, lo, x, hi, 0.0);
    } else if x < t.b {
      assert a <= k && k + 1 <= b;
      RisingIsLinear(t, lo, x, hi);
    } else if x <= t.c {
      assert b <= k && k + 1 <= c;
      Flat(t, lo, x, hi, 1.0);
    } else if x <= t.d {
      assert c <= k && k + 1 <= d;
      FallingIsLinear(t, lo, x, hi);
    } else {
      assert d <= k;
      Flat(t, lo, x, hi, 0.0);
    }
  }

  lemma LerpStart(y0: real, y1: real)
    ensures Lerp(y0, y1, 0.0) == y0
  {
  }

  /** Interpolating between two equal samples gives that value. */
  lemma Flat(t: Trapezoid, lo: real, x: real, hi: real, y: real)
    requires t.Degree(lo) == y && t.Degree(hi) == y && t.Degree(x) == y
    ensures Lerp(t.Degree(lo), t.Degree(hi), x - lo) == t.Degree(x)
  {
  }

  /** Interpolating on the rising edge gives the edge itself. */
  lemma RisingIsLinear(t: Trapezoid, lo: real, x: real, hi: real)
    requires t.Valid() && t.a <= lo <= x <= hi <= t.b && t.a < t.b && hi == lo + 1.0
    ensures Lerp(t.Degree(lo), t.Degree(hi), x - lo) == t.Degree(x)
  {
    var w := t.b - t.a;
    assert t.Degree(lo) == (lo - t.a) / w;
    assert t.Degree(hi) == (hi - t.a) / w;
    assert t.Degree(x) == (x - t.a) / w;
    assert (hi - t.a) / w - (lo - t.a) / w == 1.0 / w;
    assert (x - lo) * (1.0 / w) == (x - lo) / w;
  }

  /** Interpolating on the falling edge gives the edge itself. */
  lemma FallingIsLinear(t: Trapezoid, lo: real, x: real, hi: real)
    requires t.Valid() && t.c <= lo <= x <= hi <= t.d && t.c < t.d && hi == lo + 1.0
    ensures Lerp(t.Degree(lo), t.Degree(hi), x - lo) == t.Degree(x)
  {
    var w := t.d - t.c;
    assert t.Degree(lo) == (t.d - lo) / w;
    assert t.Degree(hi) == (t.d - hi) / w;
    assert t.Degree(x) == (t.d - x) / w;
    assert (t.d - hi) / w - (t.d - lo) / w == -1.0 / w;
    assert (x - lo) * (-1.0 / w) == -(x - lo) / w;
  }

  /** A trapezoid whose edges have equal widths is symmetric about the
      midpoint of its feet. */
  lemma DegreeSymmetric(t: Trapezoid, x: real)
    requires t.Valid() && t.b - t.a == t.d - t.c
    ensures t.Degree(t.a + t.d - x) == t.Degree(x)
  {
    var y := t.a + t.d - x;
    if t.a < x < t.b {
      assert t.c < y < t.d;
      assert (t.d - y) / (t.d - t.c) == (x - t.a) / (t.b - t.a);
    } else if t.c < x < t.d {
      assert t.a < y < t.b;
      assert (y - t.a) / (t.b - t.a) == (t.d - x) / (t.d - t.c);
    }
  }

  /** Degree is monotone on the rising edge and antitone on the falling
      edge. */
  lemma DegreeShape(t: Trapezoid, x: real, y: real)
    requires t.Valid() && x <= y
    ensures y <= t.c ==> t.Degree(x) <= t.Degree(y)
    ensures t.b <= x ==> t.Degree(y) <= t.Degree(x)
  {
    if y <= t.c && t.a <= x && x < y && y < t.b {
      RatioMonotone(x - t.a, y - t.a, t.b - t.a);
    }
    if t.b <= x && t.c < x && x < y && y <= t.d {
      RatioMonotone(t.d - y, t.d - x, t.d - t.c);
    }
  }
}

=== FILE: rules.dfy ===
/** The rule base: antecedent expressions over (variable, term) pairs,
    combined with Zadeh AND (min) and OR (max), and the activation each
    output term receives from the rules that conclude it. */
module Rules {
  import opened Membership
  import opened Antecedents

  /** The four measured variables, in the order the summary lists them. */
  datatype Var = Idade | Imc | Glicemia | Pressao

  /** The three linguistic terms, in registration order. */
  datatype Level = Baixo | Medio | Alto

  /** The two risk scores. */
  datatype Output = RiscoDiabetes | RiscoHipertensao

  function Grade(g: Grades, l: Level): real
  {
    match l
    case Baixo => g.baixo
    case Medio => g.medio
    case Alto => g.alto
  }

  /** Fuzzified inputs: the grades of every measured variable. */
  datatype Memberships = Memberships(idade: Grades, imc: Grades, glicemia: Grades, pressao: Grades)
  {
    function Of(v: Var): Grades
    {
      match v
      case Idade => idade
      case Imc => imc
      case Glicemia => glicemia
      case Pressao => pressao
    }

    predicate InUnit() { idade.InUnit() && imc.InUnit() && glicemia.InUnit() && pressao.InUnit() }

    /** Every grade of `this` is at most the matching grade of `other`. */
    predicate Below(other: Memberships)
    {
      forall v: Var, l: Level :: Grade(Of(v), l) <= Grade(other.Of(v), l)
    }
  }

  /** A rule premise: a (variable, term) reference, or AND / OR of two. */
  datatype Expr = Is(v: Var, l: Level) | And(left: Expr, right: Expr) | Or(left: Expr, right: Expr)

  /** A rule: its premise and the output term it concludes. */
  datatype Rule = Rule(premise: Expr, output: Output, level: Level)

  /** Firing strength of a premise. */
  function Eval(e: Expr, m: Memberships): (r: real)
    ensures m.InUnit() ==> 0.0 <= r <= 1.0
  {
    match e
    case Is(v, l) => Grade(m.Of(v), l)
    case And(p, q) => Min(Eval(p, m), Eval(q, m))
    case Or(p, q) => Max(Eval(p, m), Eval(q, m))
  }

  /** The six rules; `a | b | c` associates to the left. */
  const RULE_BASE: seq<Rule> := [
    Rule(Or(Or(Is(Glicemia, Alto), Is(Imc, Alto)), Is(Idade, Alto)), RiscoDiabetes, Alto),
    Rule(And(Is(Glicemia, Medio), Is(Imc, Medio)), RiscoDiabetes, Medio),
    Rule(And(Is(Glicemia, Baixo), Is(Idade, Baixo)), RiscoDiabetes, Baixo),
    Rule(Or(Or(Is(Pressao, Alto), Is(Idade, Alto)), Is(Imc, Alto)), RiscoHipertensao, Alto),
    Rule(And(Is(Pressao, Medio), Is(Idade, Medio)), RiscoHipertensao, Medio),
    Rule(And(Is(Pressao, Baixo), Is(Idade, Baixo)), RiscoHipertensao, Baixo)
  ]

  /** Activation of the output term `(o, l)`: the largest firing strength
      among the rules that conclude it, zero when none does. */
  function Activation(rules: seq<Rule>, o: Output, l: Level, m: Memberships): (r: real)
    ensures 0.0 <= r
    ensures m.InUnit() ==> r <= 1.0
    ensures (exists i :: 0 <= i < |rules| && rules[i].output == o && rules[i].level == l && Eval(rules[i].premise, m) > 0.0)
            <== r > 0.0
  {
    if rules == [] then 0.0
    else
      var rest := Activation(rules[1..], o, l, m);
      assert rest > 0.0 ==> exists i :: 1 <= i < |rules| && rules[i].output == o && rules[i].level == l
                                        && Eval(rules[i].premise, m) > 0.0 by {
        if rest > 0.0 {
          var j :| 0 <= j < |rules[1..]| && rules[1..][j].output == o && rules[1..][j].level == l
                   && Eval(rules[1..][j].premise, m) > 0.0;
          assert rules[j + 1] == rules[1..][j];
        }
      }
      if rules[0].output == o && rules[0].level == l then Max(Eval(rules[0].premise, m), rest)
      else rest
  }

  /** Activations of the three terms of one output. */
  function Firing(o: Output, m: Memberships): (g: Grades)
    ensures 0.0 <= g.baixo && 0.0 <= g.medio && 0.0 <= g.alto
    ensures m.InUnit() ==> g.InUnit()
  {
    Grades(Activation(RULE_BASE, o, Baixo, m), Activation(RULE_BASE, o, Medio, m),
           Activation(RULE_BASE, o, Alto, m))
  }

  /** The diabetes activations: `alto` is the largest of the glucose, BMI
      and age `alto` grades; `medio` the smaller of the glucose and BMI
      `medio` grades; `baixo` the smaller of the glucose and age `baixo`
      grades. */
  lemma DiabetesFiring(m: Memberships)
    requires m.InUnit()
    ensures Firing(RiscoDiabetes, m)
            == Grades(Min(m.glicemia.baixo, m.idade.baixo),
                      Min(m.glicemia.medio, m.imc.medio),
                      Max3(m.glicemia.alto, m.imc.alto, m.idade.alto))
  {
    UnfoldRuleBase(RiscoDiabetes, m);
    assert Activation(RULE_BASE, RiscoDiabetes, Baixo, m) == Eval(RULE_BASE[Index(RiscoDiabetes, Baixo)].premise, m);
    assert Activation(RULE_BASE, RiscoDiabetes, Medio, m) == Eval(RULE_BASE[Index(RiscoDiabetes, Medio)].premise, m);
    assert Activation(RULE_BASE, RiscoDiabetes, Alto, m) == Eval(RULE_BASE[Index(RiscoDiabetes, Alto)].premise, m);
    assert Eval(Or(Is(Glicemia, Alto), Is(Imc, Alto)), m) == Max(m.glicemia.alto, m.imc.alto);
  }

  /** The hypertension activations: `alto` is the largest of the pressure,
      age and BMI `alto` grades; `medio` the smaller of the pressure and age
      `medio` grades; `baixo` the smaller of the pressure and age `baixo`
      grades. */
  lemma HypertensionFiring(m: Memberships)
    requires m.InUnit()
    ensures Firing(RiscoHipertensao, m)
            == Grades(Min(m.pressao.baixo, m.idade.baixo),
                      Min(m.pressao.medio, m.idade.medio),
                      Max3(m.pressao.alto, m.idade.alto, m.imc.alto))
  {
    UnfoldRuleBase(RiscoHipertensao, m);
    assert Activation(RULE_BASE, RiscoHipertensao, Baixo, m) == Eval(RULE_BASE[Index(RiscoHipertensao, Baixo)].premise, m);
    assert Activation(RULE_BASE, RiscoHipertensao, Medio, m) == Eval(RULE_BASE[Index(RiscoHipertensao, Medio)].premise, m);
    assert Activation(RULE_BASE, RiscoHipertensao, Alto, m) == Eval(RULE_BASE[Index(RiscoHipertensao, Alto)].premise, m);
    assert Eval(Or(Is(Pressao, Alto), Is(Idade, Alto)), m) == Max(m.pressao.alto, m.idade.alto);
  }

  /** Each output term is concluded by exactly one rule, so its activation
      is that rule's firing strength. */
  lemma UnfoldRuleBase(o: Output, m: Memberships)
    requires m.InUnit()
    ensures forall l: Level :: Activation(RULE_BASE, o, l, m) == Eval(RULE_BASE[Index(o, l)].premise, m)
  {
    forall l: Level ensures Activation(RULE_BASE, o, l, m) == Eval(RULE_BASE[Index(o, l)].premise, m) {
      ActivationOfSole(RULE_BASE, o, l, m, Index(o, l));
    }
  }

  /** A term concluded by one rule only is activated by that rule's
      strength. */
  lemma {:induction false} ActivationOfSole(rules: seq<Rule>, o: Output, l: Level, m: Memberships, i: nat)
    requires i < |rules| && rules[i].output == o && rules[i].level == l
    requires forall j :: 0 <= j < |rules| && j != i ==> !(rules[j].output == o && rules[j].level == l)
    requires 0.0 <= Eval(rules[i].premise, m)
    ensures Activation(rules, o, l, m) == Eval(rules[i].premise, m)
  {
    if i == 0 {
      ActivationOfNone(rules[1..], o, l, m);
    } else {
      ActivationOfSole(rules[1..], o, l, m, i - 1);
    }
  }

  /** A term no rule concludes has activation zero. */
  lemma {:induction false} ActivationOfNone(rules: seq<Rule>, o: Output, l: Level, m: Memberships)
    requires forall j :: 0 <= j < |rules| ==> !(rules[j].output == o && rules[j].level == l)
    ensures Activation(rules, o, l, m) == 0.0
  {
    if rules != [] {
      ActivationOfNone(rules[1..], o, l, m);
    }
  }

  /** Position in the rule base of the rule concluding `(o, l)`. */
  function Index(o: Output, l: Level): (i: nat)
    ensures i < |RULE_BASE| && RULE_BASE[i].output == o && RULE_BASE[i].level == l
  {
    (if o == RiscoDiabetes then 0 else 3) + (match l case Alto => 0 case Medio => 1 case Baixo => 2)
  }

  /** The rule base has six rules, one for each output term. */
  lemma RuleBaseOnePerTerm()
    ensures |RULE_BASE| == 6
    ensures forall j, o, l :: 0 <= j < |RULE_BASE| && RULE_BASE[j].output == o && RULE_BASE[j].level == l
                              ==> j == Index(o, l)
  {
  }

  /** Raising grades never lowers a firing strength. */
  lemma {:induction false} EvalMonotone(e: Expr, m: Memberships, m': Memberships)
    requires m.Below(m')
    ensures Eval(e, m) <= Eval(e, m')
  {
    match e
    case Is(v, l) =>
    case And(p, q) => EvalMonotone(p, m, m'); EvalMonotone(q, m, m');
    case Or(p, q) => EvalMonotone(p, m, m'); EvalMonotone(q, m, m');
  }

  /** Raising grades never lowers an activation. */
  lemma {:induction false} ActivationMonotone(rules: seq<Rule>, o: Output, l: Level, m: Memberships, m': Memberships)
    requires m.Below(m')
    ensures Activation(rules, o, l, m) <= Activation(rules, o, l, m')
  {
    if rules != [] {
      ActivationMonotone(rules[1..], o, l, m, m');
      EvalMonotone(rules[0].premise, m, m');
    }
  }
}
